=== FILE: README.md ===
# FridgeMate MVP: reply parser and session memory, in Dafny

FridgeMate asks a language model for two or three meal options, cuts the
model's free-text reply into option cards, and learns from the user's
feedback by echoing every earlier feedback line into the next prompt. This
project models the two parts of `mvp.py` that carry logic:

- **the reply parser** (lines 115-144): the reply is split on `---`; every
  piece that mentions `NAME:` becomes a card whose name, meta and cost come
  from the first line carrying the label (with the label deleted and the rest
  stripped, or a fixed fallback line when no line carries it), and whose
  recipe is the stripped text after the first `RECIPE:` up to the next one,
  or "Recipe details unavailable.";
- **the session memory** (lines 10-13, 23-27, 63-112, 158-165): the list of
  remembered preferences and the last reply, changed by "Decide for Me",
  "Submit Feedback & Teach AI" and "Reset AI Memory".

Files:

- `wrappers.dfy` (`Wrappers`): `Option` (Python's `None` or a value) and
  `Result` (a value or a raised error).
- `text.dfy` (`Text`): the Python `str` operations `mvp.py` uses, over
  strings as sequences of Unicode scalar values: `in`, `split` with a
  non-empty separator, `replace(x, "")` and `strip()` in the parser, and
  `join` for the preference text (line 73). Also `count`, which `mvp.py`
  never calls; it is used only to state the card bound. `split`, `replace`
  and `count` cut at the same leftmost, non-overlapping occurrences as
  CPython (the results agree; CPython's search algorithm is not modelled),
  and `strip()` removes exactly the `str.isspace()` characters.
- `parser.dfy` (`Parser`): cards from a reply.
- `session.dfy` (`Session`): the session state and the three actions.

Streamlit's widgets become parameters: the API key and ingredients text are
arguments of `Session.Decide`, the model's reply is an argument too
(`Ok(Some(text))`, `Ok(None)` when the reply carries no text, `Err(message)`
when the call raises), and the feedback text is an argument of
`Session.SubmitFeedback`.

## Model

| member | source | states |
|---|---|---|
| Text.FindFrom | mvp.py:118 | the result is the first position at or after `k` where the substring occurs, or the string's length when it never does |
| Text.Contains | mvp.py:122 | `sub in s` holds exactly when `sub` occurs at some position of `s` |
| Text.Split | mvp.py:118 | `split` with a non-empty separator yields at least one piece, exactly `[s]` when the separator is absent and two or more pieces when present, and no piece contains the separator |
| Text.SplitSecond | mvp.py:141 | `s.split(sep)[1]` exists when `sep` occurs, and is the text from the end of the first occurrence up to the next occurrence or the end of `s` |
| Text.JoinSplit | mvp.py:118 | joining the pieces of a split with the same separator gives back the original text |
| Text.SplitAvoids | mvp.py:118 | a piece of a split never contains a string the whole text does not contain |
| Text.SplitKeeps | mvp.py:124 | an occurrence of a string that shares no character with the separator survives the split whole, inside one piece |
| Text.Count | mvp.py:118 | `s.count(sub)` never exceeds the number of (possibly overlapping) places `sub` occurs, and is zero exactly when `sub` is absent |
| Text.SplitCount | mvp.py:118 | `len(s.split(sep))` is `s.count(sep) + 1` |
| Text.SplitLength | mvp.py:118 | a split has at most one piece more than the separator has (possibly overlapping) occurrences |
| Text.Join | mvp.py:73 | joining no parts gives the empty string and joining one part gives that part |
| Text.JoinAppend | mvp.py:73 | joining one more part appends the separator and the part, or gives the part alone for an empty list |
| Text.JoinEmpty | mvp.py:73 | a join of non-empty parts is empty exactly when there are no parts |
| Text.RemoveAll | mvp.py:127-129 | `replace(sub, "")` never lengthens the text and leaves a text without `sub` unchanged |
| Text.RemoveAllIsJoinOfSplit | mvp.py:127-129 | `s.replace(sub, "")` equals `"".join(s.split(sub))` |
| Text.Strip | mvp.py:124 | the result of `strip()` neither starts nor ends with whitespace and is no longer than the input |
| Text.StripSlice | mvp.py:124 | `strip()` returns a slice of its input with only whitespace before and after it |
| Text.StripUnique | mvp.py:124 | any stripped slice with only whitespace around it is the result of `strip()` |
| Text.StripIdempotent | mvp.py:127-129 | stripping twice is stripping once |
| Text.StripAvoids | mvp.py:141 | stripping never creates an occurrence of a string |
| Text.StripKeeps | mvp.py:124 | a string without whitespace at its ends that occurs in the text still occurs after stripping |
| Parser.FirstWithFrom | mvp.py:127-129 | the result is the index of the first line at or after `k` containing the label, or none when no such line exists |
| Parser.PickLine | mvp.py:127-129 | the chosen line is either one of the lines or the fallback |
| Parser.Field | mvp.py:127-129 | every field is stripped |
| Parser.FieldTakesFirst | mvp.py:127-129 | when line `p` is the first line carrying the label, the field is made from line `p` |
| Parser.FieldFallsBack | mvp.py:127-129 | when no line carries the label, the field is made from the fallback line |
| Parser.MetaDefault | mvp.py:128 | an option without a `META:` line shows exactly `N/A` |
| Parser.CostDefault | mvp.py:129 | an option without a `COST:` line shows exactly `£0` |
| Parser.MetaFallbackValue | mvp.py:128 | the fallback line `META: N/A` yields `N/A` |
| Parser.CostFallbackValue | mvp.py:129 | the fallback line `COST: £0` yields `£0` |
| Parser.Lines | mvp.py:124 | an option has at least one line and no line holds a line break |
| Parser.Recipe | mvp.py:139-144 | the recipe is stripped, never contains `RECIPE:`, contains `---` only if the option does, and is the placeholder when the option has no `RECIPE:` |
| Parser.RecipeSpan | mvp.py:139-141 | when `RECIPE:` first occurs at `i` and next at `j` (or nowhere after, with `j` the end), the recipe is the stripped text strictly between them |
| Parser.RecipeSectionClean | mvp.py:141 | the text after the first `RECIPE:` holds no further `RECIPE:`, and no `---` unless the option does |
| Parser.PlaceholderClean | mvp.py:144 | the placeholder is stripped and contains neither `RECIPE:` nor `---` |
| Parser.ParseOption | mvp.py:124-144 | all four fields of a card are stripped, its recipe never holds `RECIPE:`, and the card is clean when its option holds no `---` |
| Parser.Kept | mvp.py:121-122 | the kept options are exactly the options that mention `NAME:`, there are no more of them than options, and none are kept exactly when no option mentions `NAME:` |
| Parser.KeptAppend | mvp.py:121-122 | filtering two runs of options one after the other keeps each run's options, in order and with repetitions, the first run's before the second's |
| Parser.KeptOne | mvp.py:122 | a single option is kept exactly when it mentions `NAME:` |
| Parser.ParseReply | mvp.py:118-144 | a reply yields exactly one card per `---`-separated option that mentions `NAME:`, so never more cards than options |
| Parser.ReplyCardAt | mvp.py:118-144 | card `c` is built from the `c`-th option that mentions `NAME:`, in reply order |
| Parser.CardsClean | mvp.py:118-144 | every card shown has four stripped fields and a recipe free of `RECIPE:` and `---` |
| Parser.NoNameNoCards | mvp.py:121-122 | a reply yields no card exactly when it never mentions `NAME:` |
| Parser.CardCountBound | mvp.py:118-122 | a reply yields at most one card more than `reply.count("---")` |
| Parser.NameFound | mvp.py:127 | in an option that mentions `NAME:` some line carries `NAME:` |
| Parser.NameNeverFallsBack | mvp.py:127 | the name of every card shown comes from a line of its option carrying `NAME:`, so `NAME: Unknown` is never used |
| Session.Cards | mvp.py:115-122 | cards are on screen exactly when `last_options` is truthy and mentions `NAME:` |
| Session.MemoryText | mvp.py:73 | the preference text of an empty memory is empty and of a one-entry memory is that entry |
| Session.MemoryTextEmpty | mvp.py:73 | for a memory of non-empty entries, the preference text is empty exactly when the memory is |
| Session.ResetMemory | mvp.py:26-27 | a reset empties the memory and keeps the shown reply |
| Session.SubmitFeedback | mvp.py:158-165 | while options are shown, non-empty feedback is appended as exactly one new last entry with the earlier entries kept in order, and the shown reply is cleared; otherwise nothing changes |
| Session.FeedbackExtendsMemoryText | mvp.py:158-161 | accepted feedback extends the preference text by `". "` and the feedback, or makes it the feedback alone for an empty memory |
| Session.FeedbackClearsOptions | mvp.py:158-165 | after accepted feedback no card is shown and a second submission changes nothing |
| Session.Decide | mvp.py:63-112 | a request is made exactly when the key and the ingredients are both non-empty, and carries the joined memory; memory never changes; a missing key is reported before empty ingredients; only a reply replaces `last_options`, which an exception leaves alone while its message is reported |
| Session.StepValid | mvp.py:158-161 | every action keeps every remembered preference non-empty |
| Session.RunValid | mvp.py:10-13 | any series of actions from a state whose preferences are all non-empty keeps every remembered preference non-empty |
| Session.FreshRunValid | mvp.py:10-13 | any series of actions from a fresh session, with no preferences and no reply, keeps every remembered preference non-empty |

## Left out

- The Streamlit page itself: layout, titles, columns, the recipe expander, the image and "Full Plog" buttons and their keys (lines 115-153), and `st.rerun()`.
- The request to the model: creating the client, the model name, the system instruction and user message templates (lines 70-107) and the Gemini SDK. A failure while creating the client and a failure of the call both arrive as `Err`.
- Session.ResetMemory: the "Reset AI Memory" button is only drawn when the memory is non-empty (line 23); the model allows the reset on an empty memory too, because its outcome, an empty memory, is the same.
- Session.Decide: the preference text is computed only after the client is created (line 73 follows line 70); the model reports it whenever both inputs are non-empty.
- Text.Split: only non-empty separators are modelled; Python raises on an empty one, and every separator in `mvp.py` is a non-empty literal.
- Text.RemoveAll: only non-empty patterns are modelled. Every label `mvp.py` passes to `replace` is a non-empty literal; `replace` with an empty pattern, which inserts the replacement between characters, is not modelled.
- Text.Strip: `strip()` is modelled over Unicode scalar values with the `str.isspace()` set written out; no Unicode database is consulted.
- Lone surrogates: a Python `str` may hold one, a Dafny `char` may not, so strings holding lone surrogates are not modelled.
- The time, energy, vibe, budget and grocery-access widgets only feed the prompt template and are not modelled.
- Field values: `replace` deletes every occurrence of the label anywhere in the chosen line, not only a leading one (lines 127-129), so a name line `NAME: A NAME: B` becomes ` A  B` after `replace` and `A  B` after `strip()`; the model deletes every occurrence the same way.
- Recipe: the recipe is the text after the first `RECIPE:` up to the next `RECIPE:` or the end of the option (line 141), so any other labelled lines that follow `RECIPE:` are part of the recipe; the model keeps them too.

=== FILE: parser.dfy ===
/**
 * Turning the model's reply into recipe cards (mvp.py lines 115-144).
 *
 * The reply is cut at every "---"; each piece that mentions "NAME:" becomes a
 * card.  Within a piece, the name, meta and cost fields come from the first
 * line carrying their label (or from a fixed fallback line), with the label
 * deleted and the rest stripped; the recipe is the stripped text after the
 * first "RECIPE:" up to the next one, or a fixed placeholder.
 */
module Parser {
  import opened Wrappers
  import opened Text

  const Delimiter: string := "---"
  const NameLabel: string := "NAME:"
  const MetaLabel: string := "META:"
  const CostLabel: string := "COST:"
  const RecipeLabel: string := "RECIPE:"
  const LineBreak: string := "\n"

  /** The lines `next(...)` falls back to when no line carries the label. */
  const NameFallback: string := "NAME: Unknown"
  const MetaFallback: string := "META: N/A"
  const CostFallback: string := "COST: \U{A3}0"
  const RecipePlaceholder: string := "Recipe details unavailable."

  /** One rendered option. */
  datatype Card = Card(name: string, meta: string, cost: string, recipe: string)

  // ---------------------------------------------------------------------
  // Fields
  // ---------------------------------------------------------------------

  /** The index of the first line at or after `k` that contains `tag`. */
  function FirstWithFrom(lines: seq<string>, tag: string, k: nat): (r: Option<nat>)
    requires k <= |lines|
    ensures r.Some? ==> k <= r.value < |lines| && Contains(lines[r.value], tag)
    ensures r.Some? ==> forall p :: k <= p < r.value ==> !Contains(lines[p], tag)
    ensures r.None? ==> forall p :: k <= p < |lines| ==> !Contains(lines[p], tag)
    decreases |lines| - k
  {
    if k == |lines| then None
    else if Contains(lines[k], tag) then Some(k)
    else FirstWithFrom(lines, tag, k + 1)
  }

  /** Python `next((l for l in lines if tag in l), fallback)`. */
  function PickLine(lines: seq<string>, tag: string, fallback: string): (l: string)
    ensures l == fallback || l in lines
  {
    match FirstWithFrom(lines, tag, 0)
    case Some(p) => lines[p]
    case None => fallback
  }

  /** `PickLine(...).replace(tag, "").strip()`: one field of a card. */
  function Field(lines: seq<string>, tag: string, fallback: string): (r: string)
    requires |tag| > 0
    ensures IsStripped(r)
  {
    Strip(RemoveAll(PickLine(lines, tag, fallback), tag))
  }

  /** `opt.strip().split('\n')`. */
  function Lines(opt: string): (lines: seq<string>)
    ensures |lines| >= 1
    ensures forall p :: 0 <= p < |lines| ==> !Contains(lines[p], LineBreak)
  {
    Split(Strip(opt), LineBreak)
  }

  /** The recipe section of one option (mvp.py lines 139-144). */
  function Recipe(opt: string): (r: string)
    ensures IsStripped(r)
    ensures !Contains(r, RecipeLabel)
    ensures !Contains(opt, Delimiter) ==> !Contains(r, Delimiter)
    ensures !Contains(opt, RecipeLabel) ==> r == RecipePlaceholder
  {
    if Contains(opt, RecipeLabel) then
      RecipeSectionClean(opt);
      Strip(Split(opt, RecipeLabel)[1])
    else
      PlaceholderClean();
      RecipePlaceholder
  }

  /** The text after the first "RECIPE:" holds no further "RECIPE:", and no
      "---" unless the option did. */
  lemma RecipeSectionClean(opt: string)
    requires Contains(opt, RecipeLabel)
    ensures |Split(opt, RecipeLabel)| >= 2
    ensures !Contains(Strip(Split(opt, RecipeLabel)[1]), RecipeLabel)
    ensures !Contains(opt, Delimiter) ==> !Contains(Strip(Split(opt, RecipeLabel)[1]), Delimiter)
  {
    var section := Split(opt, RecipeLabel)[1];
    StripAvoids(section, RecipeLabel);
    if !Contains(opt, Delimiter) {
      SplitAvoids(opt, RecipeLabel, Delimiter);
      StripAvoids(section, Delimiter);
    }
  }

  /** The characters of the placeholder that matter below. */
  lemma PlaceholderChars()
    ensures RecipePlaceholder[0] == 'R' && RecipePlaceholder[|RecipePlaceholder| - 1] == '.'
    ensures ':' !in RecipePlaceholder && '-' !in RecipePlaceholder
  {
  }

  /** The placeholder is stripped and holds neither a recipe label nor a
      delimiter. */
  lemma PlaceholderClean()
    ensures IsStripped(RecipePlaceholder)
    ensures !Contains(RecipePlaceholder, RecipeLabel)
    ensures !Contains(RecipePlaceholder, Delimiter)
  {
    PlaceholderChars();
    assert RecipeLabel[6] == ':' && Delimiter[0] == '-';
    MissingCharAvoids(RecipePlaceholder, RecipeLabel, 6);
    MissingCharAvoids(RecipePlaceholder, Delimiter, 0);
  }

  /** What every shown card satisfies: all four fields stripped, and a
      recipe free of "RECIPE:" and of "---". */
  predicate Clean(c: Card) {
    && IsStripped(c.name) && IsStripped(c.meta) && IsStripped(c.cost) && IsStripped(c.recipe)
    && !Contains(c.recipe, RecipeLabel) && !Contains(c.recipe, Delimiter)
  }

  /** One card from one option (mvp.py lines 124-144). */
  function ParseOption(opt: string): (c: Card)
    ensures IsStripped(c.name) && IsStripped(c.meta) && IsStripped(c.cost) && IsStripped(c.recipe)
    ensures !Contains(c.recipe, RecipeLabel)
    ensures !Contains(opt, Delimiter) ==> Clean(c)
  {
    var lines := Lines(opt);
    Card(Field(lines, NameLabel, NameFallback),
         Field(lines, MetaLabel, MetaFallback),
         Field(lines, CostLabel, CostFallback),
         Recipe(opt))
  }

  // ---------------------------------------------------------------------
  // The whole reply
  // ---------------------------------------------------------------------

  /** The options that mention "NAME:", in order (mvp.py line 122). */
  function Kept(options: seq<string>): (r: seq<string>)
    ensures |r| <= |options|
    ensures forall x :: x in r <==> x in options && Contains(x, NameLabel)
    ensures r == [] <==> forall p :: 0 <= p < |options| ==> !Contains(options[p], NameLabel)
  {
    if options == [] then []
    else
      var rest := Kept(options[1..]);
      assert forall x :: x in options <==> x == options[0] || x in options[1..];
      if Contains(options[0], NameLabel) then [options[0]] + rest else rest
  }

  /** Filtering a concatenation filters each part: the kept options keep
      their relative order and every repetition. */
  lemma {:induction false} KeptAppend(a: seq<string>, b: seq<string>)
    ensures Kept(a + b) == Kept(a) + Kept(b)
    decreases |a|
  {
    if a == [] {
      assert a + b == b;
    } else {
      assert (a + b)[0] == a[0] && (a + b)[1..] == a[1..] + b;
      KeptAppend(a[1..], b);
    }
  }

  /** A single option is kept exactly when it mentions "NAME:". */
  lemma KeptOne(x: string)
    ensures Kept([x]) == if Contains(x, NameLabel) then [x] else []
  {
    assert [x][1..] == [];
  }

  /** One card per option, in order. */
  function ParseAll(options: seq<string>): (cards: seq<Card>)
    ensures |cards| == |options|
  {
    seq(|options|, c requires 0 <= c < |options| => ParseOption(options[c]))
  }

  /** Card `c` is the card of option `c`. */
  lemma ParseAllAt(options: seq<string>, c: nat)
    requires c < |options|
    ensures ParseAll(options)[c] == ParseOption(options[c])
  {
  }

  /** The cards shown for a reply (mvp.py lines 118-144): one per
      "---"-separated option that mentions "NAME:". */
  function ParseReply(reply: string): (cards: seq<Card>)
    ensures |cards| == |Kept(Split(reply, Delimiter))|
    ensures |cards| <= |Split(reply, Delimiter)|
  {
    ParseAll(Kept(Split(reply, Delimiter)))
  }

  /** Card `c` of a reply is the card of the `c`-th option that mentions
      "NAME:", counting in reply order. */
  lemma ReplyCardAt(reply: string, c: nat)
    requires c < |ParseReply(reply)|
    ensures ParseReply(reply)[c] == ParseOption(Kept(Split(reply, Delimiter))[c])
  {
    ParseAllAt(Kept(Split(reply, Delimiter)), c);
  }

  /** Every card shown is clean. */
  lemma CardsClean(reply: string)
    ensures forall c :: 0 <= c < |ParseReply(reply)| ==> Clean(ParseReply(reply)[c])
  {
    var options := Split(reply, Delimiter);
    var kept := Kept(options);
    forall c | 0 <= c < |kept|
      ensures Clean(ParseAll(kept)[c])
    {
      assert kept[c] in options;
      ParseAllAt(kept, c);
    }
  }

  // ---------------------------------------------------------------------
  // Properties of the parser
  // ---------------------------------------------------------------------

  /** `next(...)` takes the first line carrying the label: if line `p` is the
      first such line, the field is made from line `p`. */
  lemma FieldTakesFirst(lines: seq<string>, tag: string, fallback: string, p: nat)
    requires |tag| > 0 && p < |lines| && Contains(lines[p], tag)
    requires forall q :: 0 <= q < p ==> !Contains(lines[q], tag)
    ensures Field(lines, tag, fallback) == Strip(RemoveAll(lines[p], tag))
  {
    var r := FirstWithFrom(lines, tag, 0);
    assert r.Some? && r.value == p;
  }

  /** Without a line carrying the label the field comes from the fallback. */
  lemma FieldFallsBack(lines: seq<string>, tag: string, fallback: string)
    requires |tag| > 0
    requires forall q :: 0 <= q < |lines| ==> !Contains(lines[q], tag)
    ensures Field(lines, tag, fallback) == Strip(RemoveAll(fallback, tag))
  {
  }

  /** Deleting a label from a fallback line that starts with it, when what
      follows is too short to hold the label again, leaves what follows. */
  lemma RemoveLeading(tag: string, rest: string)
    requires 0 < |tag| && |rest| < |tag|
    ensures RemoveAll(tag + rest, tag) == rest
  {
    var s := tag + rest;
    OccursAtChars(s, tag, 0);
    FindFromUnique(s, tag, 0, 0);
    FindFromUnique(s, tag, |tag|, |s|);
    assert RemoveFrom(s, tag, |tag|) == s[|tag|..];
    assert s[|tag|..] == rest;
  }

  /** Stripping one leading whitespace character off a stripped string. */
  lemma StripLeadingSpace(c: char, v: string)
    requires IsSpace(c) && IsStripped(v)
    ensures Strip([c] + v) == v
  {
    var s := [c] + v;
    assert s[1..1 + |v|] == v;
    StripUnique(s, v, 1);
  }

  /** The meta fallback "META: N/A" yields "N/A". */
  lemma MetaFallbackValue()
    ensures Strip(RemoveAll(MetaFallback, MetaLabel)) == "N/A"
  {
    assert MetaFallback == MetaLabel + ([' '] + "N/A");
    RemoveLeading(MetaLabel, [' '] + "N/A");
    StripLeadingSpace(' ', "N/A");
  }

  /** The cost fallback "COST: £0" yields "£0". */
  lemma CostFallbackValue()
    ensures Strip(RemoveAll(CostFallback, CostLabel)) == "\U{A3}0"
  {
    assert CostFallback == CostLabel + ([' '] + "\U{A3}0");
    RemoveLeading(CostLabel, [' '] + "\U{A3}0");
    StripLeadingSpace(' ', "\U{A3}0");
  }

  /** An option with no "META:" line shows "N/A" as its meta field. */
  lemma MetaDefault(opt: string)
    requires forall q :: 0 <= q < |Lines(opt)| ==> !Contains(Lines(opt)[q], MetaLabel)
    ensures ParseOption(opt).meta == "N/A"
  {
    FieldFallsBack(Lines(opt), MetaLabel, MetaFallback);
    MetaFallbackValue();
  }

  /** An option with no "COST:" line shows "£0" as its cost field. */
  lemma CostDefault(opt: string)
    requires forall q :: 0 <= q < |Lines(opt)| ==> !Contains(Lines(opt)[q], CostLabel)
    ensures ParseOption(opt).cost == "\U{A3}0"
  {
    FieldFallsBack(Lines(opt), CostLabel, CostFallback);
    CostFallbackValue();
  }

  /** Facts about the label characters the proofs below rely on. */
  lemma LabelChars()
    ensures !IsSpace(NameLabel[0]) && !IsSpace(NameLabel[|NameLabel| - 1])
    ensures Disjoint(LineBreak, NameLabel) && Disjoint(Delimiter, NameLabel)
  {
    assert forall c :: c in LineBreak ==> c == '\n';
    assert forall c :: c in Delimiter ==> c == '-';
    assert '\n' !in NameLabel && '-' !in NameLabel;
  }

  /** An option that mentions "NAME:" has a line that carries it, so the name
      always comes from the option and never from "NAME: Unknown". */
  lemma NameFound(opt: string)
    requires Contains(opt, NameLabel)
    ensures FirstWithFrom(Lines(opt), NameLabel, 0).Some?
  {
    LabelChars();
    StripKeeps(opt, NameLabel);
    SplitKeeps(Strip(opt), LineBreak, NameLabel);
  }

  /** Every card shown takes its name from a line of its option. */
  lemma NameNeverFallsBack(reply: string, c: nat)
    requires c < |ParseReply(reply)|
    ensures exists opt, p ::
      && opt in Split(reply, Delimiter)
      && 0 <= p < |Lines(opt)|
      && Contains(Lines(opt)[p], NameLabel)
      && ParseReply(reply)[c].name == Strip(RemoveAll(Lines(opt)[p], NameLabel))
  {
    var kept := Kept(Split(reply, Delimiter));
    var opt := kept[c];
    assert opt in kept;
    ParseAllAt(kept, c);
    NameFound(opt);
    var p := FirstWithFrom(Lines(opt), NameLabel, 0).value;
    FieldTakesFirst(Lines(opt), NameLabel, NameFallback, p);
  }

  /** The recipe is the stripped text strictly between the first "RECIPE:" at
      `i` and the next one at `j`, or the end of the option. */
  lemma RecipeSpan(opt: string, i: nat, j: nat)
    requires OccursAt(opt, RecipeLabel, i)
    requires forall x :: 0 <= x < i ==> !OccursAt(opt, RecipeLabel, x)
    requires i + |RecipeLabel| <= j <= |opt| && (j == |opt| || OccursAt(opt, RecipeLabel, j))
    requires forall x :: i + |RecipeLabel| <= x < j ==> !OccursAt(opt, RecipeLabel, x)
    ensures Recipe(opt) == Strip(opt[i + |RecipeLabel|..j])
  {
    FindFromUnique(opt, RecipeLabel, 0, i);
    FindFromUnique(opt, RecipeLabel, i + |RecipeLabel|, j);
    SplitSecond(opt, RecipeLabel);
  }

  /** A reply shows no card exactly when it never mentions "NAME:". */
  lemma NoNameNoCards(reply: string)
    ensures ParseReply(reply) == [] <==> !Contains(reply, NameLabel)
  {
    var options := Split(reply, Delimiter);
    LabelChars();
    if Contains(reply, NameLabel) {
      SplitKeeps(reply, Delimiter, NameLabel);
      var p :| 0 <= p < |options| && Contains(options[p], NameLabel);
      assert options[p] in Kept(options);
    } else {
      SplitAvoids(reply, Delimiter, NameLabel);
    }
  }

  /** At most one card more than `reply.count("---")`. */
  lemma CardCountBound(reply: string)
    ensures |ParseReply(reply)| <= Count(reply, Delimiter) + 1
  {
    SplitCount(reply, Delimiter);
  }
}

=== FILE: session.dfy ===
/**
 * The per-session state of the app and the three user actions that change
 * it (mvp.py lines 10-13, 23-27, 63-112, 115 and 158-165): asking for
 * options, giving feedback on them, and wiping the learned preferences.
 *
 * The model's reply is an input: `Ok(Some(text))` for a reply with text,
 * `Ok(None)` for a reply without text, `Err(message)` for an exception.
 */
module Session {
  import opened Wrappers
  import opened Text
  import Parser

  /** The separator between remembered preferences in the prompt. */
  const MemorySeparator: string := ". "

  /** `preference_memory` and `last_options` of `st.session_state`. */
  datatype State = State(memory: seq<string>, lastOptions: Option<string>)

  /** A fresh session: nothing learned, nothing shown. */
  const Initial: State := State([], None)

  /** What the "Decide for Me" button reports. */
  datatype Verdict = MissingKey | EmptyInventory | ConnectionError(message: string) | Answered

  /** The state after pressing "Decide for Me", what was reported, and the
      preference text sent along with the request, if a request was made. */
  datatype Outcome = Outcome(state: State, verdict: Verdict, request: Option<string>)

  /** Every remembered preference is non-empty: feedback is only stored when
      it is truthy. */
  predicate Valid(st: State) {
    forall i :: 0 <= i < |st.memory| ==> st.memory[i] != ""
  }

  /** Line 115: the options and the feedback form are shown only when
      `last_options` is truthy, that is, present and non-empty. */
  predicate ShowsOptions(st: State) {
    st.lastOptions.Some? && st.lastOptions.value != ""
  }

  /** The cards on screen (mvp.py lines 115-122): some exactly when
      `last_options` is truthy and mentions "NAME:". */
  function Cards(st: State): (cards: seq<Parser.Card>)
    ensures cards != [] <==> ShowsOptions(st) && Contains(st.lastOptions.value, Parser.NameLabel)
  {
    if ShowsOptions(st) then
      Parser.NoNameNoCards(st.lastOptions.value);
      Parser.ParseReply(st.lastOptions.value)
    else []
  }

  /** Line 73: `". ".join(preference_memory)`. */
  function MemoryText(memory: seq<string>): (r: string)
    ensures memory == [] ==> r == ""
    ensures |memory| == 1 ==> r == memory[0]
  {
    Join(memory, MemorySeparator)
  }

  /** Lines 26-27: "Reset AI Memory" forgets every preference and keeps
      whatever is on screen. */
  function ResetMemory(st: State): (r: State)
    ensures r.memory == [] && r.lastOptions == st.lastOptions
  {
    st.(memory := [])
  }

  /** Lines 158-165: "Submit Feedback & Teach AI".  Only possible while options
      are shown; non-empty feedback is remembered and clears the options,
      empty feedback changes nothing. */
  function SubmitFeedback(st: State, feedback: string): (r: State)
    ensures ShowsOptions(st) && feedback != "" ==>
      && |r.memory| == |st.memory| + 1
      && r.memory[..|st.memory|] == st.memory
      && r.memory[|st.memory|] == feedback
      && r.lastOptions == None
    ensures !(ShowsOptions(st) && feedback != "") ==> r == st
  {
    if ShowsOptions(st) && feedback != "" then
      State(st.memory + [feedback], None)
    else st
  }

  /** Lines 63-112: "Decide for Me".  Without a key or without ingredients no
      request is made; otherwise the request carries the remembered
      preferences, a reply replaces `last_options` and an exception only
      reports its message. */
  function Decide(st: State, apiKey: string, ingredients: string, reply: Result<Option<string>, string>): (o: Outcome)
    ensures o.request.Some? <==> apiKey != "" && ingredients != ""
    ensures o.request.Some? ==> o.request.value == MemoryText(st.memory)
    ensures o.state.memory == st.memory
    ensures apiKey == "" ==> o.verdict == MissingKey
    ensures apiKey != "" && ingredients == "" ==> o.verdict == EmptyInventory
    ensures o.verdict == Answered <==> o.request.Some? && reply.Ok?
    ensures o.request.Some? && reply.Err? ==> o.verdict == ConnectionError(reply.error)
    ensures o.verdict == Answered ==> o.state.lastOptions == reply.value
    ensures o.verdict != Answered ==> o.state == st
  {
    if apiKey == "" then Outcome(st, MissingKey, None)
    else if ingredients == "" then Outcome(st, EmptyInventory, None)
    else
      var request := Some(MemoryText(st.memory));
      match reply
      case Ok(text) => Outcome(st.(lastOptions := text), Answered, request)
      case Err(message) => Outcome(st, ConnectionError(message), request)
  }

  /** One user action. */
  datatype Event =
    | Reset
    | Feedback(feedback: string)
    | DecideFor(apiKey: string, ingredients: string, reply: Result<Option<string>, string>)

  /** The state after one action. */
  function Step(st: State, e: Event): State {
    match e
    case Reset => ResetMemory(st)
    case Feedback(feedback) => SubmitFeedback(st, feedback)
    case DecideFor(apiKey, ingredients, reply) => Decide(st, apiKey, ingredients, reply).state
  }

  /** The state after a series of actions. */
  function Run(st: State, events: seq<Event>): State
    decreases |events|
  {
    if events == [] then st else Run(Step(st, events[0]), events[1..])
  }

  // ---------------------------------------------------------------------
  // Properties of the session
  // ---------------------------------------------------------------------

  /** Every action keeps the remembered preferences non-empty. */
  lemma StepValid(st: State, e: Event)
    requires Valid(st)
    ensures Valid(Step(st, e))
  {
    match e
    case Reset =>
    case Feedback(feedback) =>
      var r := SubmitFeedback(st, feedback);
      if ShowsOptions(st) && feedback != "" {
        assert forall i :: 0 <= i < |st.memory| ==> r.memory[i] == st.memory[i];
      }
    case DecideFor(apiKey, ingredients, reply) =>
  }

  /** Any series of actions from a Valid state keeps it Valid. */
  lemma {:induction false} RunValid(st: State, events: seq<Event>)
    requires Valid(st)
    ensures Valid(Run(st, events))
    decreases |events|
  {
    if events != [] {
      StepValid(st, events[0]);
      RunValid(Step(st, events[0]), events[1..]);
    }
  }

  /** A fresh session keeps its preferences non-empty whatever happens. */
  lemma FreshRunValid(events: seq<Event>)
    ensures Valid(Run(Initial, events))
  {
    RunValid(Initial, events);
  }

  /** The preference text is empty exactly when nothing has been learned. */
  lemma MemoryTextEmpty(st: State)
    requires Valid(st)
    ensures MemoryText(st.memory) == "" <==> st.memory == []
  {
    JoinEmpty(st.memory, MemorySeparator);
  }

  /** Accepted feedback extends the preference text by the separator and the
      new entry. */
  lemma FeedbackExtendsMemoryText(st: State, feedback: string)
    requires ShowsOptions(st) && feedback != ""
    ensures MemoryText(SubmitFeedback(st, feedback).memory) ==
      if st.memory == [] then feedback else MemoryText(st.memory) + MemorySeparator + feedback
  {
    JoinAppend(st.memory, feedback, MemorySeparator);
  }

  /** Accepted feedback takes the options off the screen, and no further
      feedback is possible until new options arrive. */
  lemma FeedbackClearsOptions(st: State, feedback: string, more: string)
    requires ShowsOptions(st) && feedback != ""
    ensures Cards(SubmitFeedback(st, feedback)) == []
    ensures SubmitFeedback(SubmitFeedback(st, feedback), more) == SubmitFeedback(st, feedback)
  {
  }
}

=== FILE: text.dfy ===
/**
 * The Python `str` operations mvp.py uses, over strings as sequences of
 * Unicode scalar values: in the reply parser
 *   `sub in s`          -> Contains
 *   `s.split(sep)`      -> Split   (non-empty separator)
 *   `s.replace(sub, "")`-> RemoveAll
 *   `s.strip()`         -> Strip
 * and for the preference text
 *   `sep.join(parts)`   -> Join
 * together with `s.count(sub)` -> Count, which mvp.py never calls; it only
 * states how many pieces a split yields.  Split, RemoveAll and Count cut at
 * the same leftmost, non-overlapping occurrences as CPython; the model
 * matches CPython's results, not its search algorithm.
 * Scans are written over positions of the whole string rather than over
 * ever shorter suffixes.
 */
module Text {
  import opened Wrappers

  /** Python's `str.isspace()` on one character: exactly the characters that
      `strip()` without arguments removes. */
  predicate IsSpace(c: char) {
    || c == ' '
    || '\t' <= c <= '\r'
    || '\U{1C}' <= c <= '\U{1F}'
    || c == '\U{85}' || c == '\U{A0}' || c == '\U{1680}'
    || '\U{2000}' <= c <= '\U{200A}'
    || c == '\U{2028}' || c == '\U{2029}' || c == '\U{202F}' || c == '\U{205F}' || c == '\U{3000}'
  }

  /** No leading and no trailing whitespace: what `strip()` guarantees. */
  predicate IsStripped(s: string) {
    s == [] || (!IsSpace(s[0]) && !IsSpace(s[|s| - 1]))
  }

  /** The characters of `sub` from position `t` on appear in `s` from
      position `i + t` on; compared one character at a time. */
  predicate MatchesFrom(s: string, sub: string, i: nat, t: nat)
    requires i + |sub| <= |s| && t <= |sub|
    decreases |sub| - t
  {
    t == |sub| || (s[i + t] == sub[t] && MatchesFrom(s, sub, i, t + 1))
  }

  /** `sub` occurs in `s` starting at position `i`. */
  predicate OccursAt(s: string, sub: string, i: int) {
    0 <= i && i + |sub| <= |s| && MatchesFrom(s, sub, i, 0)
  }

  // ---------------------------------------------------------------------
  // Searching
  // ---------------------------------------------------------------------

  /** The first position at or after `k` where `sub` occurs, or `|s|` when
      there is none (a non-empty `sub` cannot occur at `|s|`). */
  function FindFrom(s: string, sub: string, k: nat): (r: nat)
    requires |sub| > 0 && k <= |s|
    ensures k <= r <= |s|
    ensures r < |s| ==> OccursAt(s, sub, r)
    ensures forall j :: k <= j < r ==> !OccursAt(s, sub, j)
    ensures r == |s| ==> forall j :: k <= j ==> !OccursAt(s, sub, j)
    decreases |s| - k
  {
    if k + |sub| > |s| then |s|
    else if OccursAt(s, sub, k) then k
    else FindFrom(s, sub, k + 1)
  }

  /** Python `sub in s`. */
  function Contains(s: string, sub: string): (b: bool)
    ensures b <==> exists i :: OccursAt(s, sub, i)
  {
    if |sub| == 0 then assert OccursAt(s, sub, 0); true
    else FindFrom(s, sub, 0) < |s|
  }

  // ---------------------------------------------------------------------
  // split, join, replace
  // ---------------------------------------------------------------------

  /** The pieces of `s[k..]` cut at every leftmost, non-overlapping
      occurrence of `sep`. */
  function SplitFrom(s: string, sep: string, k: nat): (parts: seq<string>)
    requires |sep| > 0 && k <= |s|
    ensures |parts| >= 1
    decreases |s| - k
  {
    var i := FindFrom(s, sep, k);
    if i == |s| then [s[k..]] else [s[k..i]] + SplitFrom(s, sep, i + |sep|)
  }

  /** Python `s.split(sep)` for a non-empty `sep`: empty pieces are kept, and
      no piece contains the separator. */
  function Split(s: string, sep: string): (parts: seq<string>)
    requires |sep| > 0
    ensures |parts| >= 1
    ensures !Contains(s, sep) ==> parts == [s]
    ensures Contains(s, sep) ==> |parts| >= 2
    ensures forall p :: 0 <= p < |parts| ==> !Contains(parts[p], sep)
  {
    assert s[0..] == s;
    SplitFromSelfAvoids(s, sep, 0);
    SplitFrom(s, sep, 0)
  }

  /** Python `sep.join(parts)`. */
  function Join(parts: seq<string>, sep: string): (r: string)
    ensures parts == [] ==> r == ""
    ensures |parts| == 1 ==> r == parts[0]
  {
    if |parts| == 0 then ""
    else if |parts| == 1 then parts[0]
    else parts[0] + sep + Join(parts[1..], sep)
  }

  /** `s[k..]` with every leftmost, non-overlapping occurrence of `sub` deleted. */
  function RemoveFrom(s: string, sub: string, k: nat): (r: string)
    requires |sub| > 0 && k <= |s|
    ensures |r| <= |s| - k
    decreases |s| - k
  {
    var i := FindFrom(s, sub, k);
    if i == |s| then s[k..] else s[k..i] + RemoveFrom(s, sub, i + |sub|)
  }

  /** Python `s.replace(sub, "")` for a non-empty `sub`. */
  function RemoveAll(s: string, sub: string): (r: string)
    requires |sub| > 0
    ensures |r| <= |s|
    ensures !Contains(s, sub) ==> r == s
  {
    assert s[0..] == s;
    RemoveFrom(s, sub, 0)
  }

  // ---------------------------------------------------------------------
  // strip
  // ---------------------------------------------------------------------

  /** The first position at or after `k` that does not hold whitespace. */
  function SkipSpace(s: string, k: nat): (a: nat)
    requires k <= |s|
    ensures k <= a <= |s|
    ensures a == |s| || !IsSpace(s[a])
    decreases |s| - k
  {
    if k < |s| && IsSpace(s[k]) then SkipSpace(s, k + 1) else k
  }

  /** The end of the last non-whitespace character of `s[a..k]`, or `a`. */
  function SkipSpaceBack(s: string, a: nat, k: nat): (b: nat)
    requires a <= k <= |s|
    ensures a <= b <= k
    ensures b == a || !IsSpace(s[b - 1])
    decreases k
  {
    if a < k && IsSpace(s[k - 1]) then SkipSpaceBack(s, a, k - 1) else k
  }

  /** Everything `SkipSpace` skips is whitespace. */
  lemma {:induction false} SkipSpaceSkipsSpace(s: string, k: nat)
    requires k <= |s|
    ensures forall i :: k <= i < SkipSpace(s, k) ==> IsSpace(s[i])
    decreases |s| - k
  {
    if k < |s| && IsSpace(s[k]) {
      SkipSpaceSkipsSpace(s, k + 1);
    }
  }

  /** Everything `SkipSpaceBack` skips is whitespace. */
  lemma {:induction false} SkipSpaceBackSkipsSpace(s: string, a: nat, k: nat)
    requires a <= k <= |s|
    ensures forall i :: SkipSpaceBack(s, a, k) <= i < k ==> IsSpace(s[i])
    decreases k
  {
    if a < k && IsSpace(s[k - 1]) {
      SkipSpaceBackSkipsSpace(s, a, k - 1);
    }
  }

  /** `r` is the slice of `s` at `i` with only whitespace on either side. */
  ghost predicate StripsTo(s: string, r: string, i: nat) {
    && i + |r| <= |s|
    && r == s[i..i + |r|]
    && (forall k :: 0 <= k < i ==> IsSpace(s[k]))
    && (forall k :: i + |r| <= k < |s| ==> IsSpace(s[k]))
  }

  /** Python `s.strip()`. */
  function Strip(s: string): (r: string)
    ensures IsStripped(r)
    ensures |r| <= |s|
  {
    var a := SkipSpace(s, 0);
    s[a..SkipSpaceBack(s, a, |s|)]
  }

  /** `strip()` removes whitespace and nothing else, from both ends only. */
  lemma StripSlice(s: string)
    ensures StripsTo(s, Strip(s), SkipSpace(s, 0))
  {
    var a := SkipSpace(s, 0);
    SkipSpaceSkipsSpace(s, 0);
    SkipSpaceBackSkipsSpace(s, a, |s|);
  }

  // ---------------------------------------------------------------------
  // Lemmas about occurrences
  // ---------------------------------------------------------------------

  /** The text from `k` up to the next occurrence of `sep` (or the end)
      does not contain `sep`. */
  lemma PieceAvoids(s: string, sep: string, k: nat, i: nat)
    requires |sep| > 0 && k <= i <= |s|
    requires forall j :: k <= j < i ==> !OccursAt(s, sep, j)
    requires i == |s| || OccursAt(s, sep, i)
    ensures !Contains(s[k..i], sep)
  {
    forall j | OccursAt(s[k..i], sep, j)
      ensures false
    {
      OccursInSlice(s, sep, k, i, j);
    }
  }

  lemma {:induction false} MatchesChars(s: string, sub: string, i: nat, t: nat)
    requires i + |sub| <= |s| && t <= |sub|
    ensures MatchesFrom(s, sub, i, t) <==> forall u :: t <= u < |sub| ==> s[i + u] == sub[u]
    decreases |sub| - t
  {
    if t < |sub| {
      MatchesChars(s, sub, i, t + 1);
    }
  }

  /** No piece of a split contains the separator. */
  lemma {:induction false} SplitFromSelfAvoids(s: string, sep: string, k: nat)
    requires |sep| > 0 && k <= |s|
    ensures forall p :: 0 <= p < |SplitFrom(s, sep, k)| ==> !Contains(SplitFrom(s, sep, k)[p], sep)
    decreases |s| - k
  {
    var i := FindFrom(s, sep, k);
    PieceAvoids(s, sep, k, i);
    if i == |s| {
      assert s[k..] == s[k..|s|];
    } else {
      SplitFromSelfAvoids(s, sep, i + |sep|);
    }
  }

  /** An occurrence, character by character. */
  lemma OccursAtChars(s: string, sub: string, i: int)
    ensures OccursAt(s, sub, i) <==>
      0 <= i && i + |sub| <= |s| && forall u :: 0 <= u < |sub| ==> s[i + u] == sub[u]
  {
    if 0 <= i && i + |sub| <= |s| {
      MatchesChars(s, sub, i, 0);
    }
  }

  /** An occurrence inside a slice is an occurrence in the whole string, and
      an occurrence of the whole string that lies inside the slice is one of
      the slice. */
  lemma OccursInSlice(s: string, sub: string, a: nat, b: nat, j: int)
    requires a <= b <= |s|
    ensures OccursAt(s[a..b], sub, j) <==> OccursAt(s, sub, a + j) && j >= 0 && a + j + |sub| <= b
  {
    OccursAtChars(s[a..b], sub, j);
    OccursAtChars(s, sub, a + j);
    var t := s[a..b];
    if j >= 0 && a + j + |sub| <= b {
      assert forall u :: 0 <= u < |sub| ==> (t[j + u] == sub[u] <==> s[a + j + u] == sub[u]);
    }
  }

  /** Every character inside an occurrence of `sub` is a character of `sub`. */
  lemma OccurrenceChars(s: string, sub: string, q: nat)
    requires OccursAt(s, sub, q)
    ensures forall i :: q <= i < q + |sub| ==> s[i] in sub
  {
    OccursAtChars(s, sub, q);
    forall i | q <= i < q + |sub|
      ensures s[i] in sub
    {
      assert s[i] == sub[i - q];
    }
  }

  /** An occurrence is a slice equal to `sub`. */
  lemma OccursAtSlice(s: string, sub: string, i: nat)
    requires OccursAt(s, sub, i)
    ensures s[i..i + |sub|] == sub
  {
    OccursAtChars(s, sub, i);
  }

  /** A slice of a string that does not contain `sub` does not contain it. */
  lemma SliceAvoids(s: string, sub: string, a: nat, b: nat)
    requires a <= b <= |s|
    requires !Contains(s, sub)
    ensures !Contains(s[a..b], sub)
  {
    if Contains(s[a..b], sub) {
      var j :| OccursAt(s[a..b], sub, j);
      OccursInSlice(s, sub, a, b, j);
    }
  }

  /** Every piece of `SplitFrom(s, sep, k)` is a slice `s[a..b]` of `s`. */
  lemma {:induction false} SplitFromPiece(s: string, sep: string, k: nat, p: nat)
    returns (a: nat, b: nat)
    requires |sep| > 0 && k <= |s| && p < |SplitFrom(s, sep, k)|
    ensures a <= b <= |s| && SplitFrom(s, sep, k)[p] == s[a..b]
    decreases |s| - k
  {
    var i := FindFrom(s, sep, k);
    if i == |s| {
      assert s[k..] == s[k..|s|];
      a, b := k, |s|;
    } else if p == 0 {
      a, b := k, i;
    } else {
      a, b := SplitFromPiece(s, sep, i + |sep|, p - 1);
    }
  }

  /** Splitting cannot create an occurrence of a string the input avoids. */
  lemma SplitAvoids(s: string, sep: string, sub: string)
    requires |sep| > 0
    requires !Contains(s, sub)
    ensures forall p :: 0 <= p < |Split(s, sep)| ==> !Contains(Split(s, sep)[p], sub)
  {
    forall p | 0 <= p < |Split(s, sep)|
      ensures !Contains(Split(s, sep)[p], sub)
    {
      var a, b := SplitFromPiece(s, sep, 0, p);
      SliceAvoids(s, sub, a, b);
    }
  }

  /** `sep` and `sub` have no character in common. */
  predicate Disjoint(sep: string, sub: string) {
    forall c :: c in sep ==> c !in sub
  }

  /** A stretch `s[q..q + n]` free of the separator's characters lies inside
      one piece `s[a..b]` of the split from `k <= q`. */
  lemma {:induction false} SplitFromCover(s: string, sep: string, k: nat, q: nat, n: nat)
    returns (p: nat, a: nat, b: nat)
    requires |sep| > 0 && 0 < n && k <= q && q + n <= |s|
    requires forall x :: q <= x < q + n ==> s[x] !in sep
    ensures a <= q && q + n <= b <= |s|
    ensures p < |SplitFrom(s, sep, k)| && SplitFrom(s, sep, k)[p] == s[a..b]
    decreases |s| - k
  {
    var i := FindFrom(s, sep, k);
    if i == |s| {
      assert s[k..] == s[k..|s|];
      p, a, b := 0, k, |s|;
    } else if q + n <= i {
      p, a, b := 0, k, i;
    } else {
      OccurrenceChars(s, sep, i);
      assert s[i] in sep && s[q] !in sep;
      var p' := 0;
      p', a, b := SplitFromCover(s, sep, i + |sep|, q, n);
      p := p' + 1;
    }
  }

  /** Splitting on a separator that shares no character with `sub` keeps
      every occurrence of `sub` inside one piece. */
  lemma SplitKeeps(s: string, sep: string, sub: string)
    requires |sep| > 0 && |sub| > 0 && Disjoint(sep, sub)
    requires Contains(s, sub)
    ensures exists p :: 0 <= p < |Split(s, sep)| && Contains(Split(s, sep)[p], sub)
  {
    var q :| OccursAt(s, sub, q);
    OccurrenceChars(s, sub, q);
    var p, a, b := SplitFromCover(s, sep, 0, q, |sub|);
    OccursInSlice(s, sub, a, b, q - a);
    assert Contains(Split(s, sep)[p], sub);
  }

  /** A string holding a character that `s` lacks does not occur in `s`. */
  lemma MissingCharAvoids(s: string, sub: string, t: nat)
    requires t < |sub| && sub[t] !in s
    ensures !Contains(s, sub)
  {
    forall q: int
      ensures !OccursAt(s, sub, q)
    {
      OccursAtChars(s, sub, q);
      if 0 <= q && q + |sub| <= |s| {
        assert s[q + t] in s;
      }
    }
  }

  /** The first occurrence at or after `k` is the one at `i` exactly when
      nothing occurs in between and `i` is an occurrence or the end. */
  lemma FindFromUnique(s: string, sub: string, k: nat, i: nat)
    requires |sub| > 0 && k <= i <= |s|
    requires forall j :: k <= j < i ==> !OccursAt(s, sub, j)
    requires i == |s| || OccursAt(s, sub, i)
    ensures FindFrom(s, sub, k) == i
  {
  }

  /** The first piece of a split runs up to the first occurrence. */
  lemma SplitFromHead(s: string, sep: string, k: nat)
    requires |sep| > 0 && k <= |s|
    ensures SplitFrom(s, sep, k)[0] == s[k..FindFrom(s, sep, k)]
  {
    assert s[k..] == s[k..|s|];
  }

  /** Python's `s.split(sep)[1]`: the text between the first occurrence of
      `sep` and the second one, or the end of `s`. */
  lemma SplitSecond(s: string, sep: string)
    requires |sep| > 0 && Contains(s, sep)
    ensures |Split(s, sep)| >= 2
    ensures var j := FindFrom(s, sep, 0) + |sep|;
      Split(s, sep)[1] == s[j..FindFrom(s, sep, j)]
  {
    var j := FindFrom(s, sep, 0) + |sep|;
    assert Split(s, sep)[1] == SplitFrom(s, sep, j)[0];
    SplitFromHead(s, sep, j);
  }

  /** Stripping a string that does not contain `sub` cannot produce it. */
  lemma StripAvoids(s: string, sub: string)
    requires !Contains(s, sub)
    ensures !Contains(Strip(s), sub)
  {
    var i := SkipSpace(s, 0);
    StripSlice(s);
    SliceAvoids(s, sub, i, i + |Strip(s)|);
  }

  /** A string that neither starts nor ends with whitespace and occurs in `s`
      still occurs after `s` is stripped. */
  lemma StripKeeps(s: string, sub: string)
    requires |sub| > 0 && !IsSpace(sub[0]) && !IsSpace(sub[|sub| - 1])
    requires Contains(s, sub)
    ensures Contains(Strip(s), sub)
  {
    var q :| OccursAt(s, sub, q);
    var r := Strip(s);
    var i := SkipSpace(s, 0);
    StripSlice(s);
    OccursAtChars(s, sub, q);
    assert s[q] == sub[0];
    assert s[q + |sub| - 1] == sub[|sub| - 1];
    assert i <= q;
    assert q + |sub| <= i + |r|;
    OccursInSlice(s, sub, i, i + |r|, q - i);
  }

  // ---------------------------------------------------------------------
  // Round trips and reference definitions
  // ---------------------------------------------------------------------

  lemma Reassemble(s: string, k: nat, i: nat, j: nat)
    requires k <= i <= j <= |s|
    ensures s[k..] == s[k..i] + s[i..j] + s[j..]
  {
  }

  lemma JoinCons(x: string, parts: seq<string>, sep: string)
    requires |parts| >= 1
    ensures Join([x] + parts, sep) == x + sep + Join(parts, sep)
  {
    assert ([x] + parts)[1..] == parts;
  }

  lemma {:induction false} JoinSplitFrom(s: string, sep: string, k: nat)
    requires |sep| > 0 && k <= |s|
    ensures Join(SplitFrom(s, sep, k), sep) == s[k..]
    decreases |s| - k
  {
    var i := FindFrom(s, sep, k);
    if i < |s| {
      var j := i + |sep|;
      var head, tail := s[k..i], SplitFrom(s, sep, j);
      assert SplitFrom(s, sep, k) == [head] + tail;
      JoinSplitFrom(s, sep, j);
      JoinCons(head, tail, sep);
      OccursAtSlice(s, sep, i);
      Reassemble(s, k, i, j);
    }
  }

  /** Splitting and joining back with the same separator restores the text:
      Python's `sep.join(s.split(sep)) == s`. */
  lemma JoinSplit(s: string, sep: string)
    requires |sep| > 0
    ensures Join(Split(s, sep), sep) == s
  {
    JoinSplitFrom(s, sep, 0);
  }

  lemma {:induction false} RemoveFromIsJoinOfSplit(s: string, sub: string, k: nat)
    requires |sub| > 0 && k <= |s|
    ensures RemoveFrom(s, sub, k) == Join(SplitFrom(s, sub, k), "")
    decreases |s| - k
  {
    var i := FindFrom(s, sub, k);
    if i == |s| {
      assert SplitFrom(s, sub, k) == [s[k..]];
    } else {
      var head, tail := s[k..i], SplitFrom(s, sub, i + |sub|);
      RemoveFromIsJoinOfSplit(s, sub, i + |sub|);
      JoinCons(head, tail, "");
      assert head + "" + Join(tail, "") == head + Join(tail, "");
    }
  }

  /** Python's `s.replace(sub, "") == "".join(s.split(sub))`. */
  lemma RemoveAllIsJoinOfSplit(s: string, sub: string)
    requires |sub| > 0
    ensures RemoveAll(s, sub) == Join(Split(s, sub), "")
  {
    RemoveFromIsJoinOfSplit(s, sub, 0);
  }

  /** Joining one more element appends the separator and the element. */
  lemma {:induction false} JoinAppend(parts: seq<string>, x: string, sep: string)
    ensures Join(parts + [x], sep) == if parts == [] then x else Join(parts, sep) + sep + x
  {
    if |parts| == 0 {
    } else if |parts| == 1 {
      assert (parts + [x])[1..] == [x];
    } else {
      assert (parts + [x])[1..] == parts[1..] + [x];
      JoinAppend(parts[1..], x, sep);
    }
  }

  /** Joining non-empty pieces yields the empty string only for no pieces. */
  lemma JoinEmpty(parts: seq<string>, sep: string)
    requires forall p :: 0 <= p < |parts| ==> parts[p] != ""
    ensures Join(parts, sep) == "" <==> parts == []
  {
    if |parts| >= 2 {
      assert |Join(parts, sep)| >= |parts[0]| > 0;
    }
  }

  /** `Strip` is the only stripped slice with nothing but whitespace around
      it: any such slice of `s` is `Strip(s)`. */
  lemma StripUnique(s: string, r: string, i: nat)
    requires StripsTo(s, r, i) && IsStripped(r)
    ensures r == Strip(s)
  {
    var a := SkipSpace(s, 0);
    SkipSpaceSkipsSpace(s, 0);
    SkipSpaceBackSkipsSpace(s, a, |s|);
    if r == [] {
      assert forall k :: 0 <= k < |s| ==> IsSpace(s[k]);
      assert a == |s|;
    } else {
      assert s[i] == r[0];
      assert a == i;
      var b := SkipSpaceBack(s, a, |s|);
      assert s[i + |r| - 1] == r[|r| - 1];
      assert b == i + |r|;
    }
  }

  /** Stripping twice is stripping once. */
  lemma StripIdempotent(s: string)
    ensures Strip(Strip(s)) == Strip(s)
  {
    var r := Strip(s);
    StripSlice(s);
    assert StripsTo(r, r, 0) by {
      assert r[0..|r|] == r;
    }
    StripUnique(r, r, 0);
  }

  // ---------------------------------------------------------------------
  // Counting occurrences
  // ---------------------------------------------------------------------

  /** The number of positions at or after `k` where `sub` occurs, overlapping
      occurrences included. */
  function OccurrencesFrom(s: string, sub: string, k: nat): nat
    decreases |s| - k
  {
    if k + |sub| > |s| then 0
    else (if OccursAt(s, sub, k) then 1 else 0) + OccurrencesFrom(s, sub, k + 1)
  }

  function Occurrences(s: string, sub: string): nat {
    OccurrencesFrom(s, sub, 0)
  }

  lemma {:induction false} OccurrencesMonotone(s: string, sub: string, k: nat, m: nat)
    requires k <= m
    ensures OccurrencesFrom(s, sub, m) <= OccurrencesFrom(s, sub, k)
    decreases m - k
  {
    if k < m {
      OccurrencesMonotone(s, sub, k + 1, m);
    }
  }

  /** Python's `s[k:].count(sub)`: the number of occurrences found by a
      leftmost scan that resumes after each one, so occurrences never
      overlap. */
  function CountFrom(s: string, sub: string, k: nat): nat
    requires |sub| > 0 && k <= |s|
    decreases |s| - k
  {
    var i := FindFrom(s, sub, k);
    if i == |s| then 0 else 1 + CountFrom(s, sub, i + |sub|)
  }

  /** Every counted occurrence is an occurrence, and counted occurrences do
      not overlap. */
  lemma {:induction false} CountBound(s: string, sub: string, k: nat)
    requires |sub| > 0 && k <= |s|
    ensures CountFrom(s, sub, k) <= OccurrencesFrom(s, sub, k)
    decreases |s| - k
  {
    var i := FindFrom(s, sub, k);
    if i < |s| {
      CountBound(s, sub, i + |sub|);
      OccurrencesMonotone(s, sub, k, i);
      assert OccurrencesFrom(s, sub, i) == 1 + OccurrencesFrom(s, sub, i + 1);
      OccurrencesMonotone(s, sub, i + 1, i + |sub|);
    }
  }

  /** `s.count(sub)` for a non-empty `sub`: never more than the number of
      places `sub` occurs, and zero exactly when `sub` is absent. */
  function Count(s: string, sub: string): (c: nat)
    requires |sub| > 0
    ensures c <= Occurrences(s, sub)
    ensures c == 0 <==> !Contains(s, sub)
  {
    CountBound(s, sub, 0);
    CountFrom(s, sub, 0)
  }

  /** A split from `k` has one piece more than the scan from `k` counts
      separators. */
  lemma {:induction false} SplitFromCount(s: string, sep: string, k: nat)
    requires |sep| > 0 && k <= |s|
    ensures |SplitFrom(s, sep, k)| == CountFrom(s, sep, k) + 1
    decreases |s| - k
  {
    var i := FindFrom(s, sep, k);
    if i < |s| {
      SplitFromCount(s, sep, i + |sep|);
    }
  }

  /** `len(s.split(sep)) == s.count(sep) + 1`. */
  lemma SplitCount(s: string, sep: string)
    requires |sep| > 0
    ensures |Split(s, sep)| == Count(s, sep) + 1
  {
    SplitFromCount(s, sep, 0);
  }

  /** `len(s.split(sep))` never exceeds the number of places `sep` occurs in
      `s`, plus one. */
  lemma SplitLength(s: string, sep: string)
    requires |sep| > 0
    ensures |Split(s, sep)| <= Occurrences(s, sep) + 1
  {
    SplitCount(s, sep);
  }
}

=== FILE: wrappers.dfy ===
/** The optional and fallible values shared by the other modules. */
module Wrappers {

  /** A value that may be absent: Python's `None` versus a present value. */
  datatype Option<+T> = None | Some(value: T)

  /** The outcome of a call that can raise: a value, or the error it raised. */
  datatype Result<+T, +E> = Ok(value: T) | Err(error: E)
}
